=== FILE: README.md ===
# Analyzer: a Dafny model of a descriptive-statistics class

`Analyzer<T>` (Analyzer.cs) holds a dataset sorted at construction. It answers:

- central-tendency queries: mean, median, mode;
- range queries: max, min, range, first and third quartile, interquartile range;
- moment-based statistics, all built on one primitive, `SumOf`: population variance and kurtosis, and sample variance, skewness and kurtosis.

This project models that class with `T` fixed to integers. Each query is a pure function (or a short method) over an immutable `Analyzer(values)`. Each exception the class throws becomes a `Failure` of a `Result`. The moment arithmetic, which the class performs on `double`s, is exact `real` arithmetic here. The model spells out 32-bit wrap-around in one place: the `int` arithmetic on `Count` in `SampleKurtosis` (Analyzer.cs:247). C#'s truncating integer division is modelled there and in the halving in `MedianWith`. The `dynamic` sums and differences elsewhere are unbounded integers, as "## Left out" says.

Modules:

- `Outcomes`: the `Result` type and the kinds of exception.
- `CSharpInt`: 32-bit wrap-around (`Wrap32`) and C#'s truncating `/` (`TruncDiv`).
- `Sequences`: sortedness, insertion sort, the LINQ `Max`/`Min` scans, real-valued sums, and the order-preserving `Where` filters used by the quartiles.
- `Grouping`: the LINQ pipeline behind `Mode`, which is `GroupBy`, then a stable `OrderBy` on the group size, then `First`.
- `StatisticsLibrary`: construction, `Mean`, `Median`, `Mode`, the range functions, the quartiles and `MedianWith`.
- `Moments`: `SumOf` with its callback chain, and the population and sample moment statistics.

The model follows the code, not its doc comments:

- `Median` for odd N averages the elements at N/2 and N/2+1. It therefore fails for N = 1.
- For even N, `Median` returns the element at N/2.
- `Mode` returns a least frequent value, not the most common one. `MostCommon` models what the doc comment describes (see "## Findings").
- `SampleSkewness` has no guard against constant data. The model follows the code and does not add one.

Each member that states a property of the source is listed below.

## Model

| member | source | states |
|---|---|---|
| StatisticsLibrary.New | Analyzer.cs:11-19 | Construction fails, with the invalid-input error, exactly when the seed is empty. Otherwise the stored data is sorted, holds the seed's values with their multiplicities, and Count equals the seed's length. |
| StatisticsLibrary.NewKeepsTheSortedSeed | Analyzer.cs:16-17 | Any sorted arrangement of the seed's values is exactly the data construction stores, so the stored order does not depend on the sorting algorithm. |
| Sequences.Sort | Analyzer.cs:17 | The result is sorted, has the input's length and is a permutation of the input. |
| Sequences.SortedPermutationUnique | Analyzer.cs:17 | Two sorted sequences with the same multiset of elements are equal. |
| StatisticsLibrary.Mean | Analyzer.cs:26-29 | N times the mean is the sum of the values. On constant data the mean is the common value. |
| StatisticsLibrary.ConstantAverage | Analyzer.cs:28 | On constant data the total over the count is the common value. |
| StatisticsLibrary.MeanBounds | Analyzer.cs:26-29 | The mean lies between the smallest and the largest value. |
| StatisticsLibrary.Median | Analyzer.cs:38-47 | The median as written fails exactly when N = 1, with an index-out-of-range error, because it reads the element past the end. Otherwise it lies between the smallest and largest value. At least ⌊N/2⌋ + 1 values lie at or below it, and at least ⌊N/2⌋ at or above it. For odd N it is the average of the elements at N/2 and N/2+1. For even N it is the element at N/2. |
| StatisticsLibrary.CenterMedian | Analyzer.cs:31-37 | The median the doc comment describes lies between the smallest and largest value. At least half the values lie at or below it, and at least half at or above it. |
| StatisticsLibrary.MedianAgainstCenter | Analyzer.cs:38-47 | For N >= 2 the written median is never below the described one. The two are equal exactly when the two elements the written median reads coincide. |
| StatisticsLibrary.MedianOddCaseCounterexample | Analyzer.cs:41-43 | For [1, 2, 3] the written median is 2.5, the described median is 2, and fewer than half the values lie at or above 2.5. |
| StatisticsLibrary.Mode | Analyzer.cs:55-61 | The mode occurs in the data. No value occurs less often than it. Among the values that occur equally rarely, it is the smallest. |
| StatisticsLibrary.ModeIsFirstLeast | Analyzer.cs:57-60 | The key at the head of the stably count-ordered groups of sorted data occurs in the data, has the least count, and is the smallest key with that count. |
| StatisticsLibrary.FirstLeastAgainst | Analyzer.cs:57-60 | On sorted data, the first group of least count has a count no larger than any value's. Among the values with that count, its key is the smallest. |
| StatisticsLibrary.ModeOfSingleMinimum | Analyzer.cs:55-61 | When the smallest value occurs once, it is the mode, however often the other values repeat. |
| StatisticsLibrary.ModeIsLeastFrequentExample | Analyzer.cs:49-61 | For [2, 4, 4, 4, 5, 5, 7, 9] the mode is 2, which occurs once, and not the most common value 4. |
| StatisticsLibrary.MostCommon | Analyzer.cs:49-53 | The mode the doc comment describes: a value of the data that no value occurs more often than, the smallest among equally common values. |
| StatisticsLibrary.FirstMostAgainst | Analyzer.cs:49-53 | On sorted data, the first group of greatest count has a count no smaller than any value's. Among the values with that count, its key is the smallest. |
| StatisticsLibrary.MostCommonOfUnique | Analyzer.cs:49-53 | A value that occurs strictly more often than every other value is the most common value. |
| StatisticsLibrary.MostCommonExample | Analyzer.cs:49-53 | For [2, 4, 4, 4, 5, 5, 7, 9] the most common value is 4. |
| StatisticsLibrary.CountsOfExample | Analyzer.cs:49-53 | In [2, 4, 4, 4, 5, 5, 7, 9] the value 4 occurs three times and every other value at most twice. |
| Grouping.Keys | Analyzer.cs:57 | The group keys are exactly the values of the data, each listed once. |
| Grouping.KeysOfSortedIncrease | Analyzer.cs:57 | The keys of sorted data are strictly increasing, because keys appear in order of first appearance. |
| Grouping.GroupBy | Analyzer.cs:57 | A value occurs in the data exactly when some group has it as key, and no two groups share a key. Each group's count is the number of occurrences of its key, so at least 1. On sorted data the keys are strictly increasing. |
| Grouping.InsertByCount | Analyzer.cs:58 | Inserting a group keeps the sequence sorted by count and adds exactly that group. The group goes in front when its count is not above the head's; otherwise the head stays in front. |
| Grouping.OrderByCount | Analyzer.cs:58 | The groups come out ordered by count, as a permutation of the input groups. |
| Grouping.FirstLeastIndex | Analyzer.cs:58-60 | The group at this index has the least count. Every group before it has a strictly larger count. |
| Grouping.FirstMostIndex | Analyzer.cs:49-53 | The group at this index has the greatest count. Every group before it has a strictly smaller count. This is the head a stable descending sort on the count would give. |
| Grouping.OrderByCountHead | Analyzer.cs:58-60 | Because the sort is stable, its head is the first group of least count in the original order. |
| StatisticsLibrary.Max | Analyzer.cs:79-82 | The maximum occurs in the data and no value exceeds it. It is the last stored value. |
| StatisticsLibrary.Min | Analyzer.cs:88-91 | The minimum occurs in the data and no value is below it. It is the first stored value. |
| Sequences.MaxOf | Analyzer.cs:81 | The left-to-right scan returns an element that no element exceeds. |
| Sequences.MinOf | Analyzer.cs:90 | The left-to-right scan returns an element no element is below. |
| StatisticsLibrary.Range | Analyzer.cs:97-103 | The range is non-negative. It bounds the difference of any two values, and equals the last stored value minus the first. |
| StatisticsLibrary.MedianWith | Analyzer.cs:274-285 | MedianWith fails exactly on fewer than two items, with the argument-out-of-range error that `ElementAt` throws. On sorted items the result lies between the first and the last item, and between the items at n/2 and (n+1)/2. For odd n the two middle items' sum, halved, is rounded toward zero, as C#'s integer `/` does. |
| CSharpInt.TruncDiv | Analyzer.cs:281 | The quotient rounds toward zero. The remainder has the dividend's sign and is smaller than the divisor in magnitude. |
| CSharpInt.HalfSumBetween | Analyzer.cs:281 | Half a sum, truncated toward zero, lies between the two summands. |
| CSharpInt.Wrap32 | Analyzer.cs:247 | The wrapped value is in the 32-bit range and congruent to the exact value modulo 2^32. It is the exact value whenever that fits. |
| Sequences.AtMost | Analyzer.cs:112 | The filter keeps every value not above the bound, with its multiplicity, and drops every other value. |
| Sequences.AtLeast | Analyzer.cs:124 | The filter keeps every value not below the bound, with its multiplicity, and drops every other value. |
| Sequences.AtMostIsPrefix | Analyzer.cs:112 | On sorted data the filter keeps exactly the prefix of values not above the bound. |
| Sequences.AtLeastIsSuffix | Analyzer.cs:124 | On sorted data the filter keeps exactly the suffix of values not below the bound. |
| StatisticsLibrary.FirstQuartile | Analyzer.cs:109-115 | The first quartile fails exactly when N = 1, through the median's index-out-of-range error. Otherwise it lies between the smallest value and the median. With k the number of values at or below the median, it lies between the values at k/2 and (k+1)/2. |
| StatisticsLibrary.LowerPart | Analyzer.cs:111-112 | For N >= 2 the values at or below the median are a sorted prefix of the data of at least two values. |
| StatisticsLibrary.ThirdQuartile | Analyzer.cs:121-127 | The third quartile fails exactly when N = 1, with the median's index-out-of-range error, or when N is 2 or 3 and the last two values differ, with `ElementAt`'s argument-out-of-range error. Otherwise it lies between the median and the largest value. With k the number of values at or above the median, it lies between the values at N − k + k/2 and N − k + (k+1)/2. |
| StatisticsLibrary.UpperPart | Analyzer.cs:123-124 | For N >= 2 the values at or above the median form a sorted, non-empty suffix ending in the largest value. That suffix is a single value exactly when N is 2 or 3 and the last two values differ. |
| StatisticsLibrary.UpperSuffix | Analyzer.cs:123-124 | For N >= 2 the values at or above the median are a sorted, non-empty suffix of the data, ending in the largest value. |
| StatisticsLibrary.UpperSingleton | Analyzer.cs:123-124 | That suffix is a single value exactly when N is 2 or 3 and the last two values differ. |
| StatisticsLibrary.UpperMedianWith | Analyzer.cs:124-126 | When MedianWith succeeds on that suffix of k values, it lies between the values at N − k + k/2 and N − k + (k+1)/2. |
| StatisticsLibrary.SuffixMedianWith | Analyzer.cs:279-284 | MedianWith of a sorted suffix of k values, when it succeeds, lies between the whole sequence's values at N − k + k/2 and N − k + (k+1)/2. |
| StatisticsLibrary.InterquartileRange | Analyzer.cs:133-138 | The interquartile range fails exactly when the third quartile does, with the same error. Otherwise it lies between 0 and the range. |
| StatisticsLibrary.QuartilesOfOneToFive | Analyzer.cs:109-127 | For [1, 2, 3, 4, 5] the written median is 3.5, the first quartile is 2 (over [1, 2, 3]) and the third is 5 (over [4, 5]). |
| StatisticsLibrary.FirstQuartileOfNegatives | Analyzer.cs:109-115 | For [-9, -8, -7, -6, -5] the written median is -6.5 and the first quartile is -7. That is the average of -8 and -7 rounded toward zero, not down to -8. |
| StatisticsLibrary.MedianOfNegatives | Analyzer.cs:38-47 | For [-9, -8, -7, -6, -5] the written median is -6.5. |
| StatisticsLibrary.LowerPartOfNegatives | Analyzer.cs:112-114 | The part of [-9, -8, -7, -6, -5] at or below -6.5 is [-9, -8, -7], and MedianWith of it is -7. |
| Moments.SumOf | Analyzer.cs:258-267 | `SumOf` passes each value, converted to a real, through the callback chain and sums the results from 0. An empty dataset sums to 0. Its value is stated by SumOfSnoc, DeviationTerms, DeviationSumIsSquared and EvenDeviationSum. |
| Moments.SumOfSnoc | Analyzer.cs:266 | As `Aggregate(0d, (a, x) => a + x)` does, appending a value adds that value's transformed value to the running total. |
| Moments.Chain | Analyzer.cs:260-264 | The callbacks apply in the order given: none leaves the value unchanged, one applies it, and two apply the first and then the second. |
| Moments.ChainSnoc | Analyzer.cs:261-264 | Each pass of the `foreach` adds one more `Select`, and appending a callback applies it after all the earlier ones. |
| Moments.PowTwo | Analyzer.cs:149 | `Math.Pow(x, 2)`, modelled by `Pow`, is the square of x. |
| Moments.DeviationTerms | Analyzer.cs:258-267 | SumOf with the callbacks x − μ and then the p-th power sums exactly the terms (x − μ)^p. |
| Moments.PowEven | Analyzer.cs:149 | `Math.Pow(x, p)` for an even p, modelled by `Pow`, is non-negative, and positive away from zero. |
| Moments.EvenDeviationSum | Analyzer.cs:258-267 | For an even power the deviation sum is non-negative. It is zero exactly when every value equals the anchor. |
| Moments.ConstantDeviationSum | Analyzer.cs:258-267 | On constant data every deviation sum around the mean, of positive power, is zero. |
| Moments.SecondDeviationZeroIffConstant | Analyzer.cs:186-189 | The second deviation sum around the mean is zero exactly on constant data. This is when PopulationKurtosis throws. |
| Moments.FourthDeviationPositive | Analyzer.cs:185 | Off constant data, the fourth deviation sum is positive. |
| Moments.DeviationSumIsSquared | Analyzer.cs:148 | The callback-driven deviation sum for power 2 equals an independently defined sum of squared deviations. |
| Moments.DeviationSumExpanded | Analyzer.cs:148 | The sum of squared deviations around any anchor μ equals Σx² − 2μΣx + Nμ². |
| Moments.PopulationVariance | Analyzer.cs:146-152 | The population variance is non-negative, and zero exactly on constant data. |
| Moments.VarianceShortcut | Analyzer.cs:146-152 | The population variance equals the mean of the squares minus the square of the mean. |
| Moments.PopulationKurtosis | Analyzer.cs:181-192 | Kurtosis fails, with the undefined-result error, exactly on constant data. Otherwise it is positive, and times the squared variance it equals the fourth central moment. |
| Moments.KurtosisIsMomentRatio | Analyzer.cs:185-191 | Off constant data, N · Σ(x − μ)⁴ / (Σ(x − μ)²)² is positive. Times the squared variance, it equals the fourth central moment. |
| Moments.SampleVariance | Analyzer.cs:200-209 | The sample variance fails, with the invalid-input error, exactly when N <= 1. Otherwise it is non-negative, is zero exactly on constant data, and times N − 1 equals N times the population variance. |
| Moments.SampleSkewness | Analyzer.cs:224-234 | The sample skewness fails, with the invalid-input error, exactly when N < 3. Otherwise the scale times (N − 1)(N − 2) is N, and the variance is the sample variance. On constant data the third sum and the variance are both zero. |
| Moments.SkewnessScale | Analyzer.cs:233 | For N >= 3 the scale N / ((N − 1)(N − 2)) is positive, and times (N − 1)(N − 2) it gives N. |
| Moments.SampleKurtosisFactor | Analyzer.cs:247 | The factor is defined for every N from 4 to int.MaxValue, because the wrapped denominator is never zero. Up to N = 1290 it is at least 1 and equals the exact ratio N(N+1)(N−1) / ((N−2)(N−3)) rounded down. |
| Moments.FactorRatioOfProducts | Analyzer.cs:247 | The exact ratio is the quotient of the two integer products, taken as reals. |
| CSharpInt.ConsecutiveProductNonzero | Analyzer.cs:247 | For 2 <= m < 2^32, the product m(m − 1) wrapped to 32 bits is never zero, so (Count − 2) * (Count − 3) cannot make the division throw. |
| CSharpInt.OddFactorIgnored | Analyzer.cs:247 | Proof step for ConsecutiveProductNonzero: if 2^j divides o·x and o is odd, then 2^j divides x. |
| CSharpInt.HalveEven | Analyzer.cs:247 | Proof step for ConsecutiveProductNonzero: if o·x = k·2p and o is odd, then x is even and halving x halves the product to k·p. |
| CSharpInt.OddProduct | Analyzer.cs:247 | Proof step for ConsecutiveProductNonzero: the product of two odd numbers is odd. |
| CSharpInt.Pow2Sum | Analyzer.cs:247 | Proof step for ConsecutiveProductNonzero: 2^(a+b) = 2^a · 2^b, which gives Pow2(32) = 2^32. |
| Moments.FactorExact | Analyzer.cs:247 | Up to N = 1290 neither 32-bit product wraps, and the truncated quotient brackets the exact ratio from below within 1. |
| Moments.SampleKurtosis | Analyzer.cs:240-248 | The sample kurtosis fails, with the invalid-input error, when N < 4, and with the undefined-result error on constant data. It succeeds in every other case. Let the interim be the population kurtosis over N. Up to N = 1290 the result is the exact ratio rounded down, times the interim. It is positive and lies within one interim below the exact ratio times the interim. |
| Moments.SampleKurtosisBracket | Analyzer.cs:245-247 | A factor that is the exact ratio rounded down, times the interim, is positive and within one interim below the ratio times the interim. |
| Moments.KurtosisBracket | Analyzer.cs:245-247 | For a positive kurtosis and any ratio, the ratio rounded down times the kurtosis over N is positive, and within one interim below the ratio times the interim. |

## Left out

- `StandardizedScore`, `PopulationStandardDeviation`, `SampleStandardDeviation` and `PopulationSkewness` are not modelled. They need a square root, which exact real arithmetic here does not provide.
- Moments.SampleSkewness: returns its three terms (the scale, the third deviation sum and the sample variance) instead of the final quotient, because the final step divides by a square root.
- Floating point is not modelled. `Convert.ToDouble`, `Average`, `Math.Pow` and the `Aggregate` sum are exact reals. Rounding, NaN and infinities are therefore not modelled, and the zero test in `PopulationKurtosis` is an exact comparison.
- StatisticsLibrary.Range: the `dynamic` subtraction of two `T` values is unbounded integer arithmetic. The wrap-around of a 32-bit `int` subtraction is not modelled.
- StatisticsLibrary.MedianWith: the `dynamic` sum of the two middle items is unbounded before the truncating halving. Its 32-bit wrap-around is not modelled.
- StatisticsLibrary.InterquartileRange: the `dynamic` subtraction is unbounded, as in Range.
- Moments.SampleKurtosis: the value is pinned to the exact ratio only up to N = 1290. Beyond that, the 32-bit products in the factor can wrap. `SampleKurtosisFactor` computes the wrapped factor but makes no claim about its value there, only that it is defined.
- Moments.SampleKurtosisFactor: requires N >= 4 and N <= int.MaxValue. The guard in `SampleKurtosis` runs before the factor, and `Count` is an `int`. C# wraps after each multiplication; the model wraps the whole product once, which gives the same 32-bit value because wrapping commutes with multiplication.
- The constructor sorts the caller's array in place and keeps a reference to it. The model stores an immutable sorted sequence, so later changes to the caller's array are not modelled.
- The publicly settable `Count` property is not modelled. The model derives the count from the data.
- Exception message strings and LINQ's deferred evaluation are not modelled. Only the kind of failure is kept.
- The median and the quartiles use the written median, not `CenterMedian`. The class's observable quartile values and failures, for example the third quartile's failure for N = 2 or 3, come from that median.

## Findings

| source | as written | input that shows it | evidently intended | confidence | as-written member | corrected member |
|---|---|---|---|---|---|---|
| Analyzer.cs:41-46 | For odd N the median averages the elements at N/2 and N/2+1. For even N it returns the element at N/2. | [1, 2, 3] gives 2.5, and [7] reads past the end. | For odd N, the element at N/2. For even N, the average of the elements at N/2−1 and N/2, as the doc comment at lines 34-35 says. The intended median has at least half the values on each side. | not executed | StatisticsLibrary.MedianOddCaseCounterexample | StatisticsLibrary.CenterMedian |
| Analyzer.cs:56-59 | `OrderBy(i => i.Count())` sorts the groups by ascending count, so `First` returns a least frequent value (the smallest among ties). | [2, 4, 4, 4, 5, 5, 7, 9] gives 2, which occurs once. | The most common value, as the doc comment at line 51 says: 4 on that input. | not executed | StatisticsLibrary.ModeIsLeastFrequentExample | StatisticsLibrary.MostCommon |

=== FILE: analyzer.dfy ===
/** The Analyzer of Analyzer.cs with its type parameter fixed to integers:
    construction, central tendency, and the range and quartile functions.
    Each exception the C# code throws is a `Failure` here. */
module StatisticsLibrary {
  import opened Outcomes
  import opened Sequences
  import opened CSharpInt
  import opened Grouping

  /** An analyzer's state: its dataset, held in ascending order. */
  datatype Analyzer = Analyzer(values: seq<int>)

  /** What construction establishes and every query relies on: the data is
      non-empty, sorted, and no longer than a .NET array can be. */
  predicate Valid(a: Analyzer) {
    0 < |a.values| <= Int32Max && Sorted(a.values)
  }

  /** `Count`, fixed at construction to the number of values. */
  function Count(a: Analyzer): nat {
    |a.values|
  }

  function Last(a: Analyzer): int
    requires Valid(a)
  {
    a.values[|a.values| - 1]
  }

  // ---------------------------------------------------------------------------
  // Construction
  // ---------------------------------------------------------------------------

  /** `new Analyzer(seed)`: rejects an empty array, otherwise keeps the values sorted. */
  function New(seed: seq<int>): (r: Result<Analyzer>)
    requires |seed| <= Int32Max
    ensures r.Failure? <==> |seed| == 0
    ensures r.Failure? ==> r.error == InvalidInput
    ensures r.Success? ==> Valid(r.value) && Count(r.value) == |seed|
    ensures r.Success? ==> multiset(r.value.values) == multiset(seed)
  {
    if |seed| == 0 then Failure(InvalidInput)
    else Success(Analyzer(Sort(seed)))
  }

  /** The stored order does not depend on the sorting algorithm: any sorted
      arrangement of the seed is the one construction keeps. */
  lemma NewKeepsTheSortedSeed(seed: seq<int>, sorted: seq<int>)
    requires 0 < |seed| <= Int32Max
    requires Sorted(sorted) && multiset(sorted) == multiset(seed)
    ensures New(seed) == Success(Analyzer(sorted))
  {
    SortedPermutationUnique(Sort(seed), sorted);
  }

  // ---------------------------------------------------------------------------
  // Central tendency
  // ---------------------------------------------------------------------------

  /** The arithmetic mean, as an exact real: N times it is the total, and on
      constant data it is the common value. */
  function Mean(a: Analyzer): (r: real)
    requires Valid(a)
    ensures r * Count(a) as real == Sum(Reals(a.values))
    ensures Constant(a.values) ==> r == a.values[0] as real
  {
    var n := Count(a) as real;
    var total := Sum(Reals(a.values));
    ConstantAverage(a.values);
    assert total == n * (total / n);
    total / n
  }

  /** On constant data the total over the count is the common value. */
  lemma ConstantAverage(s: seq<int>)
    requires |s| > 0
    ensures Constant(s) ==> Sum(Reals(s)) / |s| as real == s[0] as real
  {
    if Constant(s) {
      SumBounds(Reals(s), s[0] as real, s[0] as real);
      DivideBounds(Sum(Reals(s)), |s| as real, s[0] as real, s[0] as real);
    }
  }

  /** The mean lies between the least and the greatest value. */
  lemma MeanBounds(a: Analyzer)
    requires Valid(a)
    ensures a.values[0] as real <= Mean(a) <= Last(a) as real
  {
    var total := Sum(Reals(a.values));
    SumBounds(Reals(a.values), a.values[0] as real, Last(a) as real);
    DivideBounds(total, Count(a) as real, a.values[0] as real, Last(a) as real);
  }

  /** `Median()` as written: for odd N it averages the elements at N/2 and
      N/2+1, which reads past the end when N is 1; for even N it returns the
      element at N/2. */
  function Median(a: Analyzer): (r: Result<real>)
    requires Valid(a)
    ensures r.Failure? <==> Count(a) == 1
    ensures r.Failure? ==> r.error == IndexOutOfRange
    ensures r.Success? ==> a.values[0] as real <= r.value <= Last(a) as real
    ensures r.Success? ==>
      && |AtMost(a.values, r.value)| >= Count(a) / 2 + 1
      && |AtLeast(a.values, r.value)| >= Count(a) / 2
    ensures r.Success? && Count(a) % 2 == 1 ==>
      2.0 * r.value == a.values[Count(a) / 2] as real + a.values[Count(a) / 2 + 1] as real
    ensures Count(a) % 2 == 0 ==> r == Success(a.values[Count(a) / 2] as real)
  {
    var n := |a.values|;
    var mid := n / 2;
    if n % 2 != 0 then
      if mid + 1 < n then
        var m := (a.values[mid] as real + a.values[mid + 1] as real) / 2.0;
        AtMostCount(a.values, m, mid + 1);
        AtLeastCount(a.values, m, n - mid - 1);
        Success(m)
      else Failure(IndexOutOfRange)
    else
      var m := a.values[mid] as real;
      AtMostCount(a.values, m, mid + 1);
      AtLeastCount(a.values, m, n - mid);
      Success(m)
  }

  /** The median the documentation describes: the centre element for odd N,
      the average of the two centre elements for even N. */
  function CenterMedian(a: Analyzer): (r: real)
    requires Valid(a)
    ensures a.values[0] as real <= r <= Last(a) as real
    ensures 2 * |AtMost(a.values, r)| >= Count(a)
    ensures 2 * |AtLeast(a.values, r)| >= Count(a)
  {
    var n := |a.values|;
    var mid := n / 2;
    if n % 2 != 0 then
      var m := a.values[mid] as real;
      AtMostCount(a.values, m, mid + 1);
      AtLeastCount(a.values, m, n - mid);
      m
    else
      var m := (a.values[mid - 1] as real + a.values[mid] as real) / 2.0;
      AtMostCount(a.values, m, mid);
      AtLeastCount(a.values, m, n - mid);
      m
  }

  /** Wherever it is defined, the written median is never below the centre
      median, and meets it exactly when the two elements it reads coincide. */
  lemma MedianAgainstCenter(a: Analyzer)
    requires Valid(a) && Count(a) >= 2
    ensures Median(a).Success?
    ensures Median(a).value >= CenterMedian(a)
    ensures var n, mid := Count(a), Count(a) / 2;
      Median(a).value == CenterMedian(a) <==>
        if n % 2 == 0 then a.values[mid - 1] == a.values[mid]
        else a.values[mid] == a.values[mid + 1]
  {
    var n, mid := Count(a), Count(a) / 2;
    assert a.values[mid - 1] <= a.values[mid];
    if n % 2 != 0 {
      assert a.values[mid] <= a.values[mid + 1];
    }
  }

  /** For [1, 2, 3] the written median is 2.5 where the centre is 2, and
      fewer than half the values lie at or above it. */
  lemma MedianOddCaseCounterexample()
    ensures Valid(Analyzer([1, 2, 3]))
    ensures Median(Analyzer([1, 2, 3])) == Success(2.5)
    ensures CenterMedian(Analyzer([1, 2, 3])) == 2.0
    ensures 2 * |AtLeast([1, 2, 3], 2.5)| < 3
  {
    assert AtLeast([1, 2, 3], 2.5) == [3];
  }

  /** `Mode()`: GroupBy, a stable OrderBy on the group size, First. The result
      is a LEAST frequent value, the smallest among those, not the most
      common value. */
  function Mode(a: Analyzer): (r: int)
    requires Valid(a)
    ensures r in a.values
    ensures forall x :: x in a.values ==> multiset(a.values)[r] <= multiset(a.values)[x]
    ensures forall x :: x in a.values && multiset(a.values)[x] == multiset(a.values)[r] ==> r <= x
  {
    var groups := GroupBy(a.values);
    ModeIsFirstLeast(a);
    OrderByCount(groups)[0].key
  }

  lemma ModeIsFirstLeast(a: Analyzer)
    requires Valid(a)
    ensures var gs := GroupBy(a.values); var r := OrderByCount(gs)[0].key;
      && r in a.values
      && (forall x :: x in a.values ==> multiset(a.values)[r] <= multiset(a.values)[x])
      && (forall x :: x in a.values && multiset(a.values)[x] == multiset(a.values)[r] ==> r <= x)
  {
    var s := a.values;
    var gs := GroupBy(s);
    assert s[0] in s;
    OrderByCountHead(gs);
    var r := gs[FirstLeastIndex(gs)].key;
    forall x | x in s
      ensures multiset(s)[r] <= multiset(s)[x]
      ensures multiset(s)[x] == multiset(s)[r] ==> r <= x
    {
      FirstLeastAgainst(s, x);
    }
  }

  /** On sorted data the first group of least count has a count no larger
      than any value's, and among the values of that count its key is the least. */
  lemma FirstLeastAgainst(s: seq<int>, x: int)
    requires Sorted(s) && x in s
    ensures var gs := GroupBy(s);
      && |gs| > 0
      && var r := gs[FirstLeastIndex(gs)].key;
      && multiset(s)[r] <= multiset(s)[x]
      && (multiset(s)[x] == multiset(s)[r] ==> r <= x)
  {
    var gs := GroupBy(s);
    var j :| 0 <= j < |gs| && gs[j].key == x;
  }

  /** The value the documentation promises: the most common value, the
      smallest among equally common ones. This is the head of the groups
      after a stable sort on the count in DESCENDING order. */
  function MostCommon(a: Analyzer): (r: int)
    requires Valid(a)
    ensures r in a.values
    ensures forall x :: x in a.values ==> multiset(a.values)[x] <= multiset(a.values)[r]
    ensures forall x :: x in a.values && multiset(a.values)[x] == multiset(a.values)[r] ==> r <= x
  {
    var s := a.values;
    var gs := GroupBy(s);
    assert s[0] in s;
    var r := gs[FirstMostIndex(gs)].key;
    assert forall x | x in s ::
      multiset(s)[x] <= multiset(s)[r] && (multiset(s)[x] == multiset(s)[r] ==> r <= x) by {
      forall x | x in s
        ensures multiset(s)[x] <= multiset(s)[r]
        ensures multiset(s)[x] == multiset(s)[r] ==> r <= x
      {
        FirstMostAgainst(s, x);
      }
    }
    r
  }

  /** On sorted data the first group of greatest count has a count no smaller
      than any value's, and among the values of that count its key is the least. */
  lemma FirstMostAgainst(s: seq<int>, x: int)
    requires Sorted(s) && x in s
    ensures var gs := GroupBy(s);
      && |gs| > 0
      && var r := gs[FirstMostIndex(gs)].key;
      && multiset(s)[x] <= multiset(s)[r]
      && (multiset(s)[x] == multiset(s)[r] ==> r <= x)
  {
    var gs := GroupBy(s);
    var j :| 0 <= j < |gs| && gs[j].key == x;
  }

  /** On [2, 4, 4, 4, 5, 5, 7, 9] the most common value is 4, where the
      written Mode gives 2. */
  lemma MostCommonExample()
    ensures Valid(Analyzer([2, 4, 4, 4, 5, 5, 7, 9]))
    ensures MostCommon(Analyzer([2, 4, 4, 4, 5, 5, 7, 9])) == 4
  {
    var a := Analyzer([2, 4, 4, 4, 5, 5, 7, 9]);
    assert Valid(a);
    CountsOfExample();
    MostCommonOfUnique(a, 4);
  }

  /** A value strictly more common than every other value is the most common. */
  lemma MostCommonOfUnique(a: Analyzer, v: int)
    requires Valid(a) && v in a.values
    requires forall x :: x != v ==> multiset(a.values)[x] < multiset(a.values)[v]
    ensures MostCommon(a) == v
  {
  }

  lemma CountsOfExample()
    ensures multiset([2, 4, 4, 4, 5, 5, 7, 9])[4] == 3
    ensures forall x :: x != 4 ==> multiset([2, 4, 4, 4, 5, 5, 7, 9])[x] <= 2
  {
    assert multiset([2, 4, 4, 4, 5, 5, 7, 9]) == multiset{2, 4, 4, 4, 5, 5, 7, 9};
  }

  /** When the smallest value occurs only once it is the mode, however often
      the other values repeat. */
  lemma ModeOfSingleMinimum(a: Analyzer)
    requires Valid(a) && multiset(a.values)[a.values[0]] == 1
    ensures Mode(a) == a.values[0]
  {
    var r := Mode(a);
    assert a.values[0] in a.values;
    assert a.values[0] <= r;
  }

  /** On the dataset [2, 4, 4, 4, 5, 5, 7, 9] the mode is 2, which occurs
      once, where the most common value is 4. */
  lemma ModeIsLeastFrequentExample()
    ensures Valid(Analyzer([2, 4, 4, 4, 5, 5, 7, 9]))
    ensures Mode(Analyzer([2, 4, 4, 4, 5, 5, 7, 9])) == 2
  {
    var a := Analyzer([2, 4, 4, 4, 5, 5, 7, 9]);
    assert Valid(a);
    assert multiset(a.values)[2] == 1;
    ModeOfSingleMinimum(a);
  }

  // ---------------------------------------------------------------------------
  // Range and quartiles
  // ---------------------------------------------------------------------------

  /** `Max()`: the LINQ scan for the largest value. */
  function Max(a: Analyzer): (r: int)
    requires Valid(a)
    ensures r in a.values
    ensures forall x :: x in a.values ==> x <= r
    ensures r == Last(a)
  {
    MaxOf(a.values)
  }

  /** `Min()`: the LINQ scan for the smallest value. */
  function Min(a: Analyzer): (r: int)
    requires Valid(a)
    ensures r in a.values
    ensures forall x :: x in a.values ==> r <= x
    ensures r == a.values[0]
  {
    MinOf(a.values)
  }

  /** `Range()`: Max - Min, the widest gap between two values. */
  function Range(a: Analyzer): (r: int)
    requires Valid(a)
    ensures r >= 0
    ensures forall x, y :: x in a.values && y in a.values ==> x - y <= r
    ensures r == Last(a) - a.values[0]
  {
    Max(a) - Min(a)
  }

  /** `MedianWith(items)`: the same odd/even indexing as Median, with an
      integer average truncated toward zero. `ElementAt` past the end fails,
      so it fails on fewer than two items. On sorted items the result is the
      element at n/2 for even n, and lies between the elements at n/2 and
      n/2 + 1 for odd n. */
  function MedianWith(items: seq<int>): (r: Result<int>)
    ensures r.Failure? <==> |items| <= 1
    ensures r.Failure? ==> r.error == ArgumentOutOfRange
    ensures r.Success? && Sorted(items) ==> items[0] <= r.value <= items[|items| - 1]
    ensures r.Success? && Sorted(items) ==>
      items[|items| / 2] <= r.value <= items[(|items| + 1) / 2]
    ensures r.Success? && |items| % 2 == 1 ==>
      var sum := items[|items| / 2] + items[|items| / 2 + 1];
      && (sum >= 0 ==> 0 <= sum - 2 * r.value <= 1)
      && (sum < 0 ==> -1 <= sum - 2 * r.value <= 0)
  {
    var n := |items|;
    var mid := n / 2;
    if n % 2 != 0 then
      if mid + 1 < n then
        HalfSumBetween(items[mid], items[mid + 1]);
        Success(TruncDiv(items[mid] + items[mid + 1], 2))
      else Failure(ArgumentOutOfRange)
    else if mid < n then Success(items[mid])
    else Failure(ArgumentOutOfRange)
  }

  /** `FirstQuartile()`: MedianWith of the values at or below the median.
      That part always holds at least two values once N >= 2, so only the
      median's own failure at N = 1 gets through. */
  function FirstQuartile(a: Analyzer): (r: Result<int>)
    requires Valid(a)
    ensures r.Failure? <==> Count(a) == 1
    ensures r.Failure? ==> r.error == IndexOutOfRange
    ensures r.Success? ==> Median(a).Success?
    ensures r.Success? ==> a.values[0] <= r.value && r.value as real <= Median(a).value
    ensures r.Success? ==> var k := |AtMost(a.values, Median(a).value)|;
      && 2 <= k <= Count(a)
      && a.values[k / 2] <= r.value <= a.values[(k + 1) / 2]
  {
    var median :- Median(a);
    var lower := AtMost(a.values, median);
    LowerPart(a);
    MedianWith(lower)
  }

  lemma LowerPart(a: Analyzer)
    requires Valid(a) && Count(a) >= 2
    ensures Median(a).Success?
    ensures var lower := AtMost(a.values, Median(a).value);
      && |lower| >= 2 && Sorted(lower) && lower[0] == a.values[0]
      && |lower| <= Count(a) && lower == a.values[..|lower|]
      && lower[|lower| - 1] as real <= Median(a).value
  {
    var m := Median(a).value;
    AtMostIsPrefix(a.values, m);
    var n := Count(a);
    assert a.values[1] <= a.values[n / 2];
    AtMostCount(a.values, m, 2);
  }

  /** `ThirdQuartile()`: MedianWith of the values at or above the median. With
      the written median, that part is a single value, and the call fails,
      exactly when N is 2 or 3 and the last two values differ. */
  function ThirdQuartile(a: Analyzer): (r: Result<int>)
    requires Valid(a)
    ensures var n := Count(a);
      r.Failure? <==> n == 1 || ((n == 2 || n == 3) && a.values[n - 2] != a.values[n - 1])
    ensures r.Failure? ==> r.error == if Count(a) == 1 then IndexOutOfRange else ArgumentOutOfRange
    ensures r.Success? ==> Median(a).Success?
    ensures r.Success? ==> Median(a).value <= r.value as real && r.value <= Last(a)
    ensures r.Success? ==> var n, k := Count(a), |AtLeast(a.values, Median(a).value)|;
      && 2 <= k <= n
      && a.values[n - k + k / 2] <= r.value <= a.values[n - k + (k + 1) / 2]
  {
    var median :- Median(a);
    var upper := AtLeast(a.values, median);
    UpperPart(a);
    UpperMedianWith(a, MedianWith(upper));
    MedianWith(upper)
  }

  /** ThirdQuartile's sandwich, phrased on the analyzer as its contract is. */
  lemma UpperMedianWith(a: Analyzer, r: Result<int>)
    requires Valid(a) && Count(a) >= 2 && Median(a).Success?
    requires r == MedianWith(AtLeast(a.values, Median(a).value))
    ensures r.Success? ==> var n, k := Count(a), |AtLeast(a.values, Median(a).value)|;
      && 2 <= k <= n
      && a.values[n - k + k / 2] <= r.value <= a.values[n - k + (k + 1) / 2]
  {
    UpperSuffix(a);
    SuffixMedianWith(a.values, AtLeast(a.values, Median(a).value));
  }

  /** MedianWith of a sorted suffix, located by index in the whole sequence. */
  lemma SuffixMedianWith(s: seq<int>, upper: seq<int>)
    requires 1 <= |upper| <= |s| && upper == s[|s| - |upper|..] && Sorted(upper)
    ensures MedianWith(upper).Success? ==> var n, k := |s|, |upper|;
      && 2 <= k
      && s[n - k + k / 2] <= MedianWith(upper).value <= s[n - k + (k + 1) / 2]
  {
    var n, k := |s|, |upper|;
    if k >= 2 {
      assert upper[k / 2] == s[n - k + k / 2];
      assert upper[(k + 1) / 2] == s[n - k + (k + 1) / 2];
    }
  }

  lemma UpperPart(a: Analyzer)
    requires Valid(a) && Count(a) >= 2
    ensures Median(a).Success?
    ensures var n, upper := Count(a), AtLeast(a.values, Median(a).value);
      && |upper| >= 1 && Sorted(upper) && upper[|upper| - 1] == Last(a)
      && |upper| <= n && upper == a.values[n - |upper|..]
      && Median(a).value <= upper[0] as real
      && (|upper| == 1 <==> (n == 2 || n == 3) && a.values[n - 2] != a.values[n - 1])
  {
    UpperSuffix(a);
    UpperSingleton(a);
  }

  /** The values at or above the median are a non-empty sorted suffix. */
  lemma UpperSuffix(a: Analyzer)
    requires Valid(a) && Count(a) >= 2
    ensures Median(a).Success?
    ensures var n, upper := Count(a), AtLeast(a.values, Median(a).value);
      && |upper| >= 1 && Sorted(upper) && upper[|upper| - 1] == Last(a)
      && |upper| <= n && upper == a.values[n - |upper|..]
      && Median(a).value <= upper[0] as real
  {
    var s, m := a.values, Median(a).value;
    AtLeastIsSuffix(s, m);
    AtLeastCount(s, m, 1);
  }

  /** The suffix at or above the median is a single value exactly when N is 2
      or 3 and the last two values differ. */
  lemma UpperSingleton(a: Analyzer)
    requires Valid(a) && Count(a) >= 2
    ensures Median(a).Success?
    ensures var n := Count(a);
      |AtLeast(a.values, Median(a).value)| == 1 <==> (n == 2 || n == 3) && a.values[n - 2] != a.values[n - 1]
  {
    var s, m, n := a.values, Median(a).value, Count(a);
    AtLeastIsSuffix(s, m);
    var mid := n / 2;
    assert s[n - 2] <= s[n - 1];
    if n >= 4 {
      assert s[mid] <= s[n - 2];
      if n % 2 != 0 {
        assert s[mid + 1] <= s[n - 2];
      }
      AtLeastCount(s, m, 2);
    } else if s[n - 2] == s[n - 1] {
      AtLeastCount(s, m, 2);
    }
  }

  /** `InterquartileRange()`: ThirdQuartile - FirstQuartile. It fails exactly
      when ThirdQuartile does, and otherwise lies between 0 and the Range. */
  function InterquartileRange(a: Analyzer): (r: Result<int>)
    requires Valid(a)
    ensures r.Failure? <==> ThirdQuartile(a).Failure?
    ensures r.Failure? ==> ThirdQuartile(a).Failure? && r.error == ThirdQuartile(a).error
    ensures r.Success? ==> 0 <= r.value <= Range(a)
  {
    var q1 :- FirstQuartile(a);
    var q3 :- ThirdQuartile(a);
    Success(q3 - q1)
  }

  /** The dataset [1, 2, 3, 4, 5]: the written median is 3.5, the lower part
      [1, 2, 3] gives 2 and the upper part [4, 5] gives 5. */
  lemma QuartilesOfOneToFive()
    ensures Valid(Analyzer([1, 2, 3, 4, 5]))
    ensures Median(Analyzer([1, 2, 3, 4, 5])) == Success(3.5)
    ensures FirstQuartile(Analyzer([1, 2, 3, 4, 5])) == Success(2)
    ensures ThirdQuartile(Analyzer([1, 2, 3, 4, 5])) == Success(5)
  {
    var a := Analyzer([1, 2, 3, 4, 5]);
    assert Valid(a) && Median(a) == Success(3.5);
    assert FirstQuartile(a) == Success(2) by {
      PartsOfOneToFive();
    }
    assert ThirdQuartile(a) == Success(5) by {
      PartsOfOneToFive();
    }
  }

  /** The parts of [1, 2, 3, 4, 5] at or below and at or above 3.5. */
  lemma PartsOfOneToFive()
    ensures AtMost([1, 2, 3, 4, 5], 3.5) == [1, 2, 3]
    ensures AtLeast([1, 2, 3, 4, 5], 3.5) == [4, 5]
  {
  }

  /** On [-9, -8, -7, -6, -5] the written median is -6.5, the lower part is
      [-9, -8, -7], and the first quartile averages -8 and -7 to -7: C#'s
      integer division truncates toward zero, not toward minus infinity. */
  lemma FirstQuartileOfNegatives()
    ensures Valid(Analyzer([-9, -8, -7, -6, -5]))
    ensures Median(Analyzer([-9, -8, -7, -6, -5])) == Success(-6.5)
    ensures FirstQuartile(Analyzer([-9, -8, -7, -6, -5])) == Success(-7)
  {
    MedianOfNegatives();
    LowerPartOfNegatives();
  }

  lemma MedianOfNegatives()
    ensures Valid(Analyzer([-9, -8, -7, -6, -5]))
    ensures Median(Analyzer([-9, -8, -7, -6, -5])) == Success(-6.5)
  {
    assert Valid(Analyzer([-9, -8, -7, -6, -5]));
  }

  /** The part of [-9, -8, -7, -6, -5] at or below -6.5, and its MedianWith. */
  lemma LowerPartOfNegatives()
    ensures AtMost([-9, -8, -7, -6, -5], -6.5) == [-9, -8, -7]
    ensures MedianWith([-9, -8, -7]) == Success(-7)
  {
  }
}

=== FILE: csharp_int.dfy ===
/** C#'s 32-bit `int` arithmetic over Dafny's unbounded integers: unchecked
    wrap-around and division that truncates toward zero. */
module CSharpInt {

  const Int32Min: int := -0x8000_0000
  const Int32Max: int := 0x7FFF_FFFF
  const Int32Modulus: int := 0x1_0000_0000

  predicate InInt32(x: int) {
    Int32Min <= x <= Int32Max
  }

  function Abs(x: int): int {
    if x < 0 then -x else x
  }

  /** The unique 32-bit value congruent to `x` modulo 2^32: what an unchecked
      `int` operation yields when the exact result is `x`. */
  function Wrap32(x: int): (r: int)
    ensures InInt32(r)
    ensures (x - r) % Int32Modulus == 0
    ensures InInt32(x) ==> r == x
    decreases if x > Int32Max then x - Int32Max else if x < Int32Min then Int32Min - x else 0
  {
    if x > Int32Max then Wrap32(x - Int32Modulus)
    else if x < Int32Min then Wrap32(x + Int32Modulus)
    else x
  }

  /** Integer division as C#'s `/` computes it: the quotient rounded toward zero. */
  function TruncDiv(a: int, b: int): (q: int)
    requires b != 0
    ensures a >= 0 ==> 0 <= a - q * b < Abs(b)
    ensures a < 0 ==> -Abs(b) < a - q * b <= 0
  {
    var m := Abs(a) / Abs(b);
    DivisionTruncates(a, b, m);
    if (a < 0) == (b < 0) then m else -m
  }

  /** The remainder left by the rounded-toward-zero quotient, case by sign. */
  lemma DivisionTruncates(a: int, b: int, m: int)
    requires b != 0 && m == Abs(a) / Abs(b)
    ensures var q := if (a < 0) == (b < 0) then m else -m;
      (a >= 0 ==> 0 <= a - q * b < Abs(b)) && (a < 0 ==> -Abs(b) < a - q * b <= 0)
  {
    var A, B := Abs(a), Abs(b);
    var rem := A % B;
    var p := m * B;
    assert A == p + rem && 0 <= rem < B;
    if a >= 0 && b > 0 {
      assert a - m * b == rem;
    } else if a >= 0 {
      assert (-m) * b == p by { assert b == -B; }
      assert a - (-m) * b == rem;
    } else if b > 0 {
      assert (-m) * b == -p;
      assert a - (-m) * b == -rem;
    } else {
      assert m * b == -p by { assert b == -B; }
      assert a - m * b == -rem;
    }
  }

  /** Halving a sum truncated toward zero stays between the two summands. */
  lemma HalfSumBetween(x: int, y: int)
    ensures x <= y ==> x <= TruncDiv(x + y, 2) <= y
    ensures y <= x ==> y <= TruncDiv(x + y, 2) <= x
  {
  }

  // ---------------------------------------------------------------------------
  // Products of consecutive integers never wrap to zero
  // ---------------------------------------------------------------------------

  function Pow2(j: nat): (r: int)
    ensures r >= 1
  {
    if j == 0 then 1 else 2 * Pow2(j - 1)
  }

  lemma {:induction false} Pow2Sum(a: nat, b: nat)
    ensures Pow2(a + b) == Pow2(a) * Pow2(b)
    decreases b
  {
    if b > 0 {
      Pow2Sum(a, b - 1);
      Double(Pow2(a), Pow2(b - 1));
    }
  }

  lemma Pow2Is32BitModulus()
    ensures Pow2(32) == Int32Modulus
  {
    assert Pow2(8) == 256;
    Pow2Sum(8, 8);
    Pow2Sum(16, 16);
  }

  /** The product of two odd numbers is odd. */
  lemma OddProduct(o: int, x: int)
    requires o % 2 == 1 && x % 2 == 1
    ensures (o * x) % 2 == 1
  {
    var a, b := o / 2, x / 2;
    assert o * x == 2 * (2 * a * b + a + b) + 1;
  }

  /** An odd factor contributes nothing to divisibility by a power of two: if
      2^j divides o·x with o odd, then 2^j divides x (with quotient q). */
  lemma {:induction false} OddFactorIgnored(o: int, x: int, k: int, j: nat) returns (q: int)
    requires o % 2 == 1 && o * x == k * Pow2(j)
    ensures x == q * Pow2(j)
    decreases j
  {
    if j == 0 {
      q := x;
    } else {
      var p := Pow2(j - 1);
      var y := HalveEven(o, x, k, p);
      q := OddFactorIgnored(o, y, k, j - 1);
      Double(q, p);
    }
  }

  /** If o·x is even with o odd, x is even, and halving it halves the product. */
  lemma HalveEven(o: int, x: int, k: int, p: int) returns (y: int)
    requires o % 2 == 1 && o * x == k * (2 * p)
    ensures x == 2 * y && o * y == k * p
  {
    Double(k, p);
    if x % 2 == 1 {
      OddProduct(o, x);
      assert false;
    }
    y := x / 2;
    Double(o, y);
  }

  lemma Double(a: int, b: int)
    ensures a * (2 * b) == 2 * (a * b)
  {
  }

  /** m(m − 1) wraps to zero in 32 bits only if 2^32 divides it, and then it
      divides whichever of m and m − 1 is even; for 2 <= m < 2^32 neither is. */
  lemma ConsecutiveProductNonzero(m: int)
    requires 2 <= m < Int32Modulus
    ensures Wrap32(m * (m - 1)) != 0
  {
    var x := m * (m - 1);
    Pow2Is32BitModulus();
    if Wrap32(x) == 0 {
      var k := x / Int32Modulus;
      assert x == k * Pow2(32);
      var q;
      if m % 2 == 0 {
        q := OddFactorIgnored(m - 1, m, k, 32);
      } else {
        assert (m - 1) * m == x;
        q := OddFactorIgnored(m, m - 1, k, 32);
      }
      assert false;
    }
  }
}

=== FILE: grouping.dfy ===
/** The LINQ pipeline behind the analyzer's Mode: `GroupBy` on the value
    (keys in order of first appearance, each with its number of occurrences),
    then `OrderBy` on the count, which is a stable sort, and `First`. */
module Grouping {
  import opened Sequences

  /** No value appears twice. */
  predicate Distinct(s: seq<int>) {
    forall i, j :: 0 <= i < j < |s| ==> s[i] != s[j]
  }

  predicate StrictlyIncreasing(s: seq<int>) {
    forall i, j :: 0 <= i < j < |s| ==> s[i] < s[j]
  }

  /** The distinct values of `s` in order of first appearance. */
  function Keys(s: seq<int>): (r: seq<int>)
    ensures forall x :: x in r <==> x in s
    ensures Distinct(r)
  {
    if |s| == 0 then []
    else
      var k := Keys(s[..|s| - 1]);
      var x := s[|s| - 1];
      assert s == s[..|s| - 1] + [x];
      if x in k then k else k + [x]
  }

  /** The keys of sorted data come out in strictly increasing order. */
  lemma {:induction false} KeysOfSortedIncrease(s: seq<int>)
    ensures Sorted(s) ==> StrictlyIncreasing(Keys(s))
  {
    if Sorted(s) && |s| > 0 {
      var p := s[..|s| - 1];
      var x := s[|s| - 1];
      KeysOfSortedIncrease(p);
      var k := Keys(p);
      if x !in k {
        forall i | 0 <= i < |k| ensures k[i] < x {
          assert k[i] in p;
        }
      }
    }
  }

  /** One group of `GroupBy`: a key and how many elements carry it. */
  datatype Group = Group(key: int, count: nat)

  /** `GroupBy(x => x)` followed by the group sizes: one group per distinct
      value, keyed in order of first appearance. */
  function GroupBy(s: seq<int>): (gs: seq<Group>)
    ensures forall x :: x in s <==> exists i :: 0 <= i < |gs| && gs[i].key == x
    ensures forall i, j :: 0 <= i < j < |gs| ==> gs[i].key != gs[j].key
    ensures forall i :: 0 <= i < |gs| ==> gs[i].count == multiset(s)[gs[i].key] >= 1
    ensures Sorted(s) ==> forall i, j :: 0 <= i < j < |gs| ==> gs[i].key < gs[j].key
  {
    var keys := Keys(s);
    KeysOfSortedIncrease(s);
    var gs := seq(|keys|, i requires 0 <= i < |keys| => Group(keys[i], multiset(s)[keys[i]]));
    forall x | x in s ensures exists i :: 0 <= i < |gs| && gs[i].key == x {
      var i :| 0 <= i < |keys| && keys[i] == x;
      assert gs[i].key == x;
    }
    forall i | 0 <= i < |gs| ensures gs[i].count >= 1 {
      assert keys[i] in s;
    }
    gs
  }

  predicate SortedByCount(gs: seq<Group>) {
    forall i, j :: 0 <= i <= j < |gs| ==> gs[i].count <= gs[j].count
  }

  /** Inserts `g` in front of the first group whose count is not below its own,
      so that `g` stays ahead of the groups it tied with. */
  function InsertByCount(g: Group, gs: seq<Group>): (r: seq<Group>)
    requires SortedByCount(gs)
    ensures SortedByCount(r)
    ensures multiset(r) == multiset(gs) + multiset{g}
    ensures r[0] == (if |gs| == 0 || g.count <= gs[0].count then g else gs[0])
  {
    if |gs| == 0 || g.count <= gs[0].count then
      ConsSortedByCount(g, gs);
      [g] + gs
    else
      var t := InsertByCount(g, gs[1..]);
      assert gs == [gs[0]] + gs[1..];
      ConsSortedByCount(gs[0], t);
      [gs[0]] + t
  }

  /** A group no larger than the head of a count-sorted sequence can go in front. */
  lemma ConsSortedByCount(g: Group, gs: seq<Group>)
    requires SortedByCount(gs)
    requires |gs| > 0 ==> g.count <= gs[0].count
    ensures SortedByCount([g] + gs)
  {
    var r := [g] + gs;
    forall i, j | 0 <= i <= j < |r| ensures r[i].count <= r[j].count {
      if i > 0 {
        assert r[i] == gs[i - 1] && r[j] == gs[j - 1];
      } else if j > 0 {
        assert r[j] == gs[j - 1];
      }
    }
  }

  /** `OrderBy(g => g.Count())`: a stable sort on the count (insertion sort,
      each group inserted ahead of the later groups it ties with). */
  function OrderByCount(gs: seq<Group>): (r: seq<Group>)
    ensures SortedByCount(r)
    ensures multiset(r) == multiset(gs)
    ensures |r| == |gs|
  {
    if |gs| == 0 then []
    else
      assert gs == [gs[0]] + gs[1..];
      var r := InsertByCount(gs[0], OrderByCount(gs[1..]));
      assert |r| == |multiset(r)| == |multiset(gs)|;
      r
  }

  /** Position of the first group of least count. */
  function FirstLeastIndex(gs: seq<Group>): (i: nat)
    requires |gs| > 0
    ensures i < |gs|
    ensures forall j :: 0 <= j < |gs| ==> gs[i].count <= gs[j].count
    ensures forall j :: 0 <= j < i ==> gs[i].count < gs[j].count
  {
    if |gs| == 1 then 0
    else
      var k := FirstLeastIndex(gs[1..]) + 1;
      if gs[0].count <= gs[k].count then 0 else k
  }

  /** The first group of greatest count: the head of a stable sort on the
      count in descending order. */
  function FirstMostIndex(gs: seq<Group>): (i: nat)
    requires |gs| > 0
    ensures i < |gs|
    ensures forall j :: 0 <= j < |gs| ==> gs[j].count <= gs[i].count
    ensures forall j :: 0 <= j < i ==> gs[j].count < gs[i].count
  {
    if |gs| == 1 then 0
    else
      var k := FirstMostIndex(gs[1..]) + 1;
      if gs[0].count >= gs[k].count then 0 else k
  }

  /** Stability is what makes the sort's head the FIRST group of least count. */
  lemma {:induction false} OrderByCountHead(gs: seq<Group>)
    requires |gs| > 0
    ensures OrderByCount(gs)[0] == gs[FirstLeastIndex(gs)]
  {
    if |gs| > 1 {
      OrderByCountHead(gs[1..]);
    }
  }
}

=== FILE: moments.dfy ===
/** The moment-based statistics of Analyzer.cs. Every one of them goes
    through SumOf, which sums a chain of callbacks over the values. The model
    computes in exact reals where the source computes in doubles. */
module Moments {
  import opened Outcomes
  import opened Sequences
  import opened CSharpInt
  import opened StatisticsLibrary

  // ---------------------------------------------------------------------------
  // Powers
  // ---------------------------------------------------------------------------

  /** `Math.Pow(x, p)` for a natural exponent. */
  function Pow(x: real, p: nat): real {
    if p == 0 then 1.0 else x * Pow(x, p - 1)
  }

  lemma PowTwo(x: real)
    ensures Pow(x, 2) == Square(x)
  {
    assert Pow(x, 1) == x;
  }

  /** An even power is never negative, and is positive away from zero. */
  lemma {:induction false} PowEven(x: real, p: nat)
    requires p % 2 == 0
    ensures Pow(x, p) >= 0.0
    ensures x != 0.0 ==> Pow(x, p) > 0.0
  {
    if p > 0 {
      PowEven(x, p - 2);
      var rest := Pow(x, p - 2);
      assert Pow(x, p) == (x * x) * rest;
      assert x * x >= 0.0;
      if x != 0.0 {
        assert x * x > 0.0;
      }
    }
  }

  // ---------------------------------------------------------------------------
  // SumOf
  // ---------------------------------------------------------------------------

  /** Passes `x` through `fns` in order, as SumOf's chained `Select` calls do. */
  function Chain(fns: seq<real -> real>, x: real): (r: real)
    ensures |fns| == 0 ==> r == x
    ensures |fns| == 1 ==> r == fns[0](x)
    ensures |fns| == 2 ==> r == fns[1](fns[0](x))
    decreases |fns|
  {
    if |fns| == 0 then x else Chain(fns[1..], fns[0](x))
  }

  /** Each pass of SumOf's `foreach` wraps the sequence in one more `Select`:
      appending a callback applies it after all the earlier ones. */
  lemma {:induction false} ChainSnoc(fns: seq<real -> real>, f: real -> real, x: real)
    ensures Chain(fns + [f], x) == f(Chain(fns, x))
    decreases |fns|
  {
    if |fns| > 0 {
      assert (fns + [f])[1..] == fns[1..] + [f];
      ChainSnoc(fns[1..], f, fns[0](x));
    }
  }

  /** The values converted to reals, each passed through the chain. */
  function Transformed(values: seq<int>, fns: seq<real -> real>): (r: seq<real>)
    ensures |r| == |values|
    ensures forall i :: 0 <= i < |values| ==> r[i] == Chain(fns, values[i] as real)
  {
    seq(|values|, i requires 0 <= i < |values| => Chain(fns, values[i] as real))
  }

  /** `SumOf(fns)`: the transformed values summed from zero. As `Aggregate`
      does, it starts from 0 and adds each transformed value left to right. */
  function SumOf(values: seq<int>, fns: seq<real -> real>): (r: real)
    ensures |values| == 0 ==> r == 0.0
  {
    Sum(Transformed(values, fns))
  }

  /** Appending a value adds its transformed value to the running total. */
  lemma SumOfSnoc(values: seq<int>, fns: seq<real -> real>)
    requires |values| > 0
    ensures SumOf(values, fns) ==
      SumOf(values[..|values| - 1], fns) + Chain(fns, values[|values| - 1] as real)
  {
    assert Transformed(values, fns)[..|values| - 1] == Transformed(values[..|values| - 1], fns);
  }

  /** The two callbacks every caller passes: the deviation from `mean`, then its p-th power. */
  function DeviationPower(mean: real, p: nat): seq<real -> real> {
    [x => x - mean, x => Pow(x, p)]
  }

  /** Σ (x − mean)^p, as the moment functions obtain it from SumOf. */
  function DeviationSum(values: seq<int>, mean: real, p: nat): real {
    SumOf(values, DeviationPower(mean, p))
  }

  /** SumOf with the deviation callbacks yields the terms (x − mean)^p. */
  lemma DeviationTerms(values: seq<int>, mean: real, p: nat)
    ensures forall i :: 0 <= i < |values| ==>
      Transformed(values, DeviationPower(mean, p))[i] == Pow(values[i] as real - mean, p)
  {
    var fns := DeviationPower(mean, p);
    assert fns[1..][1..] == [];
  }

  /** For an even power the deviation sum is non-negative, and it is zero
      exactly when every value equals the anchor. */
  lemma EvenDeviationSum(values: seq<int>, mean: real, p: nat)
    requires p > 0 && p % 2 == 0
    ensures DeviationSum(values, mean, p) >= 0.0
    ensures DeviationSum(values, mean, p) == 0.0 <==>
      forall i :: 0 <= i < |values| ==> values[i] as real == mean
  {
    var t := Transformed(values, DeviationPower(mean, p));
    DeviationTerms(values, mean, p);
    forall i | 0 <= i < |values|
      ensures t[i] >= 0.0
      ensures t[i] == 0.0 <==> values[i] as real == mean
    {
      PowEven(values[i] as real - mean, p);
    }
    SumZeroIff(t);
  }

  /** Every deviation sum of a positive power vanishes on constant data. */
  lemma ConstantDeviationSum(a: Analyzer, p: nat)
    requires Valid(a) && p > 0
    ensures Constant(a.values) ==> DeviationSum(a.values, Mean(a), p) == 0.0
  {
    if Constant(a.values) {
      var t := Transformed(a.values, DeviationPower(Mean(a), p));
      DeviationTerms(a.values, Mean(a), p);
      forall i | 0 <= i < |a.values| ensures t[i] == 0.0 {
        assert a.values[i] == a.values[0];
      }
      SumZeroIff(t);
    }
  }

  /** The second deviation sum around the mean is zero exactly on constant data. */
  lemma SecondDeviationZeroIffConstant(a: Analyzer)
    requires Valid(a)
    ensures DeviationSum(a.values, Mean(a), 2) >= 0.0
    ensures DeviationSum(a.values, Mean(a), 2) == 0.0 <==> Constant(a.values)
  {
    EvenDeviationSum(a.values, Mean(a), 2);
    ConstantDeviationSum(a, 2);
  }

  /** Off constant data the fourth deviation sum is positive. */
  lemma FourthDeviationPositive(a: Analyzer)
    requires Valid(a) && !Constant(a.values)
    ensures DeviationSum(a.values, Mean(a), 4) > 0.0
  {
    EvenDeviationSum(a.values, Mean(a), 4);
    EvenDeviationSum(a.values, Mean(a), 2);
    SecondDeviationZeroIffConstant(a);
  }

  // ---------------------------------------------------------------------------
  // Independent reference: sums of squares
  // ---------------------------------------------------------------------------

  function Square(x: real): real {
    x * x
  }

  /** Σx², accumulated left to right. */
  function SumOfSquares(t: seq<real>): real {
    if |t| == 0 then 0.0 else SumOfSquares(t[..|t| - 1]) + Square(t[|t| - 1])
  }

  /** The number of values, counted as a real. */
  function Size(t: seq<real>): real {
    if |t| == 0 then 0.0 else Size(t[..|t| - 1]) + 1.0
  }

  /** Σ(x − μ)² accumulated left to right without the callback chain. */
  function SquaredDeviations(t: seq<real>, mu: real): real {
    if |t| == 0 then 0.0 else SquaredDeviations(t[..|t| - 1], mu) + Square(t[|t| - 1] - mu)
  }

  /** Expanding the square: Σ(x − μ)² = Σx² − 2μΣx + nμ², for any anchor μ. */
  lemma {:induction false} DeviationSumExpanded(t: seq<real>, mu: real)
    ensures SquaredDeviations(t, mu) == SumOfSquares(t) - 2.0 * mu * Sum(t) + Size(t) * mu * mu
  {
    if |t| > 0 {
      DeviationSumExpanded(t[..|t| - 1], mu);
      ExpandedSnoc(t, mu);
    }
  }

  /** The inductive step of the expansion: appending one value keeps it. */
  lemma ExpandedSnoc(t: seq<real>, mu: real)
    requires |t| > 0
    requires var p := t[..|t| - 1];
      SquaredDeviations(p, mu) == SumOfSquares(p) - 2.0 * mu * Sum(p) + Size(p) * mu * mu
    ensures SquaredDeviations(t, mu) == SumOfSquares(t) - 2.0 * mu * Sum(t) + Size(t) * mu * mu
  {
    var p := t[..|t| - 1];
    SnocStep(t, mu, SquaredDeviations(p, mu), SumOfSquares(p), Sum(p), Size(p),
             SquaredDeviations(t, mu), SumOfSquares(t), Sum(t), Size(t));
  }

  /** ExpandedSnoc with the sums of the prefix and of the whole named. Each sum
      is bound to a plain variable by an equation, so the solver's nonlinear
      arithmetic sees only the step identity on those variables and never
      unfolds the recursive sums inside a product. */
  lemma SnocStep(t: seq<real>, mu: real, d: real, sq: real, total: real, m: real,
                 d': real, sq': real, total': real, n: real)
    requires |t| > 0
    requires d == SquaredDeviations(t[..|t| - 1], mu) && sq == SumOfSquares(t[..|t| - 1])
    requires total == Sum(t[..|t| - 1]) && m == Size(t[..|t| - 1])
    requires d' == SquaredDeviations(t, mu) && sq' == SumOfSquares(t) && total' == Sum(t) && n == Size(t)
    requires d == sq - 2.0 * mu * total + m * mu * mu
    ensures d' == sq' - 2.0 * mu * total' + n * mu * mu
  {
    ExpandStep(d, sq, total, m, d', sq', total', n, t[|t| - 1], mu);
  }

  lemma DeviationSumSnoc(s: seq<int>, mu: real)
    requires |s| > 0
    ensures DeviationSum(s, mu, 2)
      == DeviationSum(s[..|s| - 1], mu, 2) + Square(s[|s| - 1] as real - mu)
  {
    var fns := DeviationPower(mu, 2);
    var t := Transformed(s, fns);
    assert t[..|s| - 1] == Transformed(s[..|s| - 1], fns);
    SquaredDeviationTerm(s, mu, |s| - 1);
  }

  /** The callback-driven DeviationSum with exponent 2 is the plain sum of squared deviations. */
  lemma {:induction false} DeviationSumIsSquared(s: seq<int>, mu: real)
    ensures DeviationSum(s, mu, 2) == SquaredDeviations(Reals(s), mu)
  {
    if |s| > 0 {
      DeviationSumIsSquared(s[..|s| - 1], mu);
      DeviationSumSnoc(s, mu);
      assert Reals(s)[..|s| - 1] == Reals(s[..|s| - 1]);
    } else {
      assert Transformed(s, DeviationPower(mu, 2)) == [];
    }
  }

  lemma {:induction false} SizeIsLength(t: seq<real>)
    ensures Size(t) == |t| as real
  {
    if |t| > 0 {
      SizeIsLength(t[..|t| - 1]);
    }
  }

  lemma SquaredDeviationTerm(s: seq<int>, mu: real, i: int)
    requires 0 <= i < |s|
    ensures Transformed(s, DeviationPower(mu, 2))[i] == Square(s[i] as real - mu)
  {
    var fns := DeviationPower(mu, 2);
    assert fns[1..][1..] == [];
    assert Chain(fns, s[i] as real) == Pow(s[i] as real - mu, 2);
    PowTwo(s[i] as real - mu);
  }

  lemma ExpandStep(d: real, a: real, b: real, m: real, d': real, a': real, b': real, n: real, x: real, mu: real)
    requires d == a - 2.0 * mu * b + m * mu * mu
    requires d' == d + Square(x - mu) && a' == a + Square(x) && b' == b + x && n == m + 1.0
    ensures d' == a' - 2.0 * mu * b' + n * mu * mu
  {
  }

  // ---------------------------------------------------------------------------
  // Population statistics
  // ---------------------------------------------------------------------------

  /** The p-th central moment: the mean of (x − μ)^p. */
  function CentralMoment(a: Analyzer, p: nat): real
    requires Valid(a)
  {
    DeviationSum(a.values, Mean(a), p) / Count(a) as real
  }

  /** `PopulationVariance()`: Σ(x − μ)² / N. It is never negative and is zero
      exactly on constant data. */
  function PopulationVariance(a: Analyzer): (r: real)
    requires Valid(a)
    ensures r >= 0.0
    ensures r == 0.0 <==> Constant(a.values)
  {
    var mean := Mean(a);
    var sum := DeviationSum(a.values, mean, 2);
    SecondDeviationZeroIffConstant(a);
    sum / Count(a) as real
  }

  /** The shortcut formula: the population variance is the mean square minus
      the squared mean. */
  lemma VarianceShortcut(a: Analyzer)
    requires Valid(a)
    ensures PopulationVariance(a) == SumOfSquares(Reals(a.values)) / Count(a) as real - Mean(a) * Mean(a)
  {
    VarianceOfParts(a, Mean(a), Count(a) as real, SumOfSquares(Reals(a.values)));
  }

  /** VarianceShortcut with the mean, the count and the sum of squares named,
      for the same reason as SnocStep: the products are over plain variables. */
  lemma VarianceOfParts(a: Analyzer, mu: real, n: real, sq: real)
    requires Valid(a) && mu == Mean(a) && n == Count(a) as real && sq == SumOfSquares(Reals(a.values))
    ensures PopulationVariance(a) == sq / n - mu * mu
  {
    var t := Reals(a.values);
    var d, total := SquaredDeviations(t, mu), Sum(t);
    SizeIsLength(t);
    MeanTimesCount(a, mu, n, total);
    VarianceIsSquaredDeviations(a, mu, n, d);
    VarianceAround(t, mu, d, sq, total, n);
  }

  lemma MeanTimesCount(a: Analyzer, mu: real, n: real, total: real)
    requires Valid(a) && mu == Mean(a) && n == Count(a) as real && total == Sum(Reals(a.values))
    ensures total == mu * n
  {
  }

  lemma VarianceIsSquaredDeviations(a: Analyzer, mu: real, n: real, d: real)
    requires Valid(a) && mu == Mean(a) && n == Count(a) as real && d == SquaredDeviations(Reals(a.values), mu)
    ensures PopulationVariance(a) == d / n
  {
    DeviationSumIsSquared(a.values, mu);
  }

  /** Around an anchor whose n-fold is the total, Σ(x − μ)²/n = Σx²/n − μ². */
  lemma VarianceAround(t: seq<real>, mu: real, d: real, sq: real, total: real, n: real)
    requires d == SquaredDeviations(t, mu) && sq == SumOfSquares(t) && total == Sum(t) && n == Size(t)
    requires n > 0.0 && total == mu * n
    ensures d / n == sq / n - mu * mu
  {
    ExpansionOf(t, mu, d, sq, total, n);
    Shortcut(d, sq, total, mu, n);
  }

  /** DeviationSumExpanded with the sums named. */
  lemma ExpansionOf(t: seq<real>, mu: real, d: real, sq: real, total: real, n: real)
    requires d == SquaredDeviations(t, mu) && sq == SumOfSquares(t) && total == Sum(t) && n == Size(t)
    ensures d == sq - 2.0 * mu * total + n * mu * mu
  {
    DeviationSumExpanded(t, mu);
  }

  lemma Shortcut(d: real, sq: real, total: real, mu: real, n: real)
    requires n > 0.0 && total == mu * n
    requires d == sq - 2.0 * mu * total + n * mu * mu
    ensures d / n == sq / n - mu * mu
  {
    assert 2.0 * mu * total == 2.0 * (n * mu * mu);
    assert (sq - n * mu * mu) / n == sq / n - (n * mu * mu) / n;
  }

  /** `PopulationKurtosis()`: N · Σ(x − μ)⁴ / (Σ(x − μ)²)², which is the fourth
      central moment over the squared variance. Throws when the second sum is 0. */
  function PopulationKurtosis(a: Analyzer): (r: Result<real>)
    requires Valid(a)
    ensures r.Failure? <==> Constant(a.values)
    ensures r.Failure? ==> r.error == UndefinedResult
    ensures r.Success? ==> r.value > 0.0
    ensures r.Success? ==> r.value * Square(PopulationVariance(a)) == CentralMoment(a, 4)
  {
    var mean := Mean(a);
    var fourth := DeviationSum(a.values, mean, 4);
    var second := DeviationSum(a.values, mean, 2);
    SecondDeviationZeroIffConstant(a);
    if second == 0.0 then Failure(UndefinedResult)
    else
      KurtosisIsMomentRatio(a);
      Success(Count(a) as real * (fourth / Pow(second, 2)))
  }

  /** Off constant data, N · Σ(x − μ)⁴ / (Σ(x − μ)²)² is positive and, times
      the squared variance, gives the fourth central moment. */
  lemma KurtosisIsMomentRatio(a: Analyzer)
    requires Valid(a) && !Constant(a.values)
    ensures var fourth, second := DeviationSum(a.values, Mean(a), 4), DeviationSum(a.values, Mean(a), 2);
      && second > 0.0 && Pow(second, 2) > 0.0
      && Count(a) as real * (fourth / Pow(second, 2)) > 0.0
      && Count(a) as real * (fourth / Pow(second, 2)) * Square(PopulationVariance(a)) == CentralMoment(a, 4)
  {
    KurtosisOfParts(a, Mean(a), Count(a) as real, DeviationSum(a.values, Mean(a), 4),
                    DeviationSum(a.values, Mean(a), 2), PopulationVariance(a), CentralMoment(a, 4));
  }

  /** KurtosisIsMomentRatio with the mean, the count, the sums and the moments
      named. The caller binds each parameter to its defining expression; the
      ratio algebra below then runs over plain variables (as in SnocStep). */
  lemma KurtosisOfParts(a: Analyzer, mu: real, n: real, fourth: real, second: real, v: real, m4: real)
    requires Valid(a) && !Constant(a.values) && mu == Mean(a) && n == Count(a) as real
    requires fourth == DeviationSum(a.values, mu, 4) && second == DeviationSum(a.values, mu, 2)
    requires v == PopulationVariance(a) && m4 == CentralMoment(a, 4)
    ensures second > 0.0 && Pow(second, 2) > 0.0
    ensures n * (fourth / Pow(second, 2)) > 0.0
    ensures n * (fourth / Pow(second, 2)) * Square(v) == m4
  {
    MomentSigns(a, mu, n, fourth, second, v, m4);
    PowTwo(second);
    MomentRatio(n, fourth, second, v, m4);
  }

  /** Off constant data both deviation sums are positive, and the variance and
      the fourth central moment are those sums over N. The values are named as
      in KurtosisOfParts so that its ratio step needs only these facts. */
  lemma MomentSigns(a: Analyzer, mu: real, n: real, fourth: real, second: real, v: real, m4: real)
    requires Valid(a) && !Constant(a.values) && mu == Mean(a) && n == Count(a) as real
    requires fourth == DeviationSum(a.values, mu, 4) && second == DeviationSum(a.values, mu, 2)
    requires v == PopulationVariance(a) && m4 == CentralMoment(a, 4)
    ensures n > 0.0 && second > 0.0 && fourth > 0.0
    ensures v == second / n && m4 == fourth / n
  {
    SecondDeviationZeroIffConstant(a);
    FourthDeviationPositive(a);
  }

  /** The kurtosis algebra on plain reals: with v = second/n and m4 = fourth/n,
      n · fourth / second² is positive and times v² gives m4. */
  lemma MomentRatio(n: real, fourth: real, second: real, v: real, m4: real)
    requires n > 0.0 && second > 0.0 && fourth > 0.0
    requires v == second / n && m4 == fourth / n
    ensures Square(second) > 0.0
    ensures n * (fourth / Square(second)) > 0.0
    ensures n * (fourth / Square(second)) * Square(v) == m4
  {
    var sq := second * second;
    assert sq > 0.0;
    var k := fourth / sq;
    assert k * sq == fourth;
    assert k > 0.0;
    assert second == v * n;
    assert n * k * (v * v) * n == k * sq by {
      assert sq == (v * n) * (v * n);
    }
    assert n * k * (v * v) == fourth / n;
  }

  // ---------------------------------------------------------------------------
  // Sample statistics
  // ---------------------------------------------------------------------------

  /** `SampleVariance()`: Σ(x − μ)² / (N − 1), refused for N <= 1. It is the
      population variance rescaled by N / (N − 1). */
  function SampleVariance(a: Analyzer): (r: Result<real>)
    requires Valid(a)
    ensures r.Failure? <==> Count(a) <= 1
    ensures r.Failure? ==> r.error == InvalidInput
    ensures r.Success? ==> r.value >= 0.0 && (r.value == 0.0 <==> Constant(a.values))
    ensures r.Success? ==>
      r.value * (Count(a) - 1) as real == Count(a) as real * PopulationVariance(a)
  {
    if Count(a) <= 1 then Failure(InvalidInput)
    else
      var mean := Mean(a);
      var sum := DeviationSum(a.values, mean, 2);
      SecondDeviationZeroIffConstant(a);
      Success(sum / (Count(a) - 1) as real)
  }

  /** What SampleSkewness combines: skewness = scale · thirdSum / √variance.
      The square root is outside the model, so the terms are returned. */
  datatype SkewnessTerms = SkewnessTerms(scale: real, thirdSum: real, variance: real)

  /** `SampleSkewness()`: refused for N < 3; otherwise the scale N / ((N − 1)(N − 2)),
      the third deviation sum and the sample variance it divides by the root of.
      On constant data both the sum and the variance are zero. */
  function SampleSkewness(a: Analyzer): (r: Result<SkewnessTerms>)
    requires Valid(a)
    ensures r.Failure? <==> Count(a) < 3
    ensures r.Failure? ==> r.error == InvalidInput
    ensures r.Success? ==> r.value.scale > 0.0
    ensures r.Success? ==>
      r.value.scale * ((Count(a) as real - 1.0) * (Count(a) as real - 2.0)) == Count(a) as real
    ensures r.Success? ==> SampleVariance(a) == Success(r.value.variance)
    ensures r.Success? && Constant(a.values) ==> r.value.thirdSum == 0.0 && r.value.variance == 0.0
  {
    if Count(a) < 3 then Failure(InvalidInput)
    else
      var n := Count(a);
      var mean := Mean(a);
      var sum := DeviationSum(a.values, mean, 3);
      var variance := SampleVariance(a).value;
      var scale := n as real / ((n as real - 1.0) * (n - 2) as real);
      SkewnessScale(n, scale);
      ConstantDeviationSum(a, 3);
      Success(SkewnessTerms(scale, sum, variance))
  }

  lemma SkewnessScale(n: int, scale: real)
    requires n >= 3 && scale == n as real / ((n as real - 1.0) * (n - 2) as real)
    ensures scale > 0.0
    ensures scale * ((n as real - 1.0) * (n as real - 2.0)) == n as real
  {
    var x := n as real;
    var d := (x - 1.0) * (x - 2.0);
    assert (n - 2) as real == x - 2.0;
    MulPositive(x - 1.0, x - 2.0);
    assert scale == x / d;
    PositiveQuotient(x, d);
  }

  lemma MulPositive(p: real, q: real)
    requires p > 0.0 && q > 0.0
    ensures p * q > 0.0
  {
  }

  /** The leading factor of SampleKurtosis, computed in C#'s 32-bit `int`:
      N(N+1)(N−1) / ((N−2)(N−3)), each product wrapped, the quotient truncated.
      The wrapped denominator is never zero, so the division never throws; up
      to N = 1290 nothing wraps and the factor is the exact ratio rounded down. */
  function SampleKurtosisFactor(n: int): (f: int)
    requires 4 <= n <= Int32Max
    ensures n <= 1290 ==> f >= 1 && f == FactorRatio(n).Floor
  {
    ConsecutiveProductNonzero(n - 2);
    FactorExact(n);
    FactorRatioOfProducts(n);
    TruncDiv(Wrap32(n * (n + 1) * (n - 1)), Wrap32((n - 2) * (n - 3)))
  }

  /** The exact ratio is the quotient of the two integer products taken as reals. */
  lemma FactorRatioOfProducts(n: int)
    requires n >= 4
    ensures FactorRatio(n) == (n * (n + 1) * (n - 1)) as real / ((n - 2) * (n - 3)) as real
  {
    var x := n as real;
    assert (n * (n + 1) * (n - 1)) as real == x * (x + 1.0) * (x - 1.0);
    assert ((n - 2) * (n - 3)) as real == (x - 2.0) * (x - 3.0);
  }

  /** The exact ratio N(N+1)(N−1) / ((N−2)(N−3)) that the integer factor approximates. */
  function FactorRatio(n: int): real
    requires n >= 4
  {
    var x := n as real;
    x * (x + 1.0) * (x - 1.0) / ((x - 2.0) * (x - 3.0))
  }

  /** Up to N = 1290 neither product leaves the 32-bit range, and the truncated
      quotient is the exact ratio rounded down. */
  lemma FactorExact(n: int)
    requires 4 <= n
    ensures n <= 1290 ==>
      var num, den := n * (n + 1) * (n - 1), (n - 2) * (n - 3);
      && Wrap32(num) == num && Wrap32(den) == den && den > 0 && TruncDiv(num, den) >= 1
      && TruncDiv(num, den) as real <= num as real / den as real < TruncDiv(num, den) as real + 1.0
  {
    if n <= 1290 {
      var num, den := n * (n + 1) * (n - 1), (n - 2) * (n - 3);
      MulMonotone(n, n + 1, 1290, 1291);
      MulMonotone(n * (n + 1), n - 1, 1290 * 1291, 1289);
      MulMonotone(1, 1, n - 2, n - 3);
      MulMonotone(n - 2, n - 3, 1288, 1287);
      assert InInt32(num) && InInt32(den);
      MulMonotone(n - 2, n - 3, n, n + 1);
      MulMonotone(n * (n + 1), 1, n * (n + 1), n - 1);
      assert den <= num;
      var q := TruncDiv(num, den);
      assert q * den <= num < q * den + den;
      assert q >= 1 by {
        assert q * den > 0;
        PositiveFactor(q, den);
      }
      QuotientBracket(num, den, q);
    }
  }

  lemma PositiveFactor(q: int, d: int)
    requires d > 0 && q * d > 0
    ensures q >= 1
  {
    MulMonotone(0, d, if q < 0 then -q else q, d);
  }

  lemma MulMonotone(a: int, b: int, c: int, d: int)
    requires 0 <= a <= c && 0 <= b <= d
    ensures 0 <= a * b <= c * d
  {
    assert a * b <= c * b;
    assert c * b <= c * d;
  }

  /** An integer quotient bracket carries over to the exact real quotient. */
  lemma QuotientBracket(num: int, den: int, q: int)
    requires den > 0 && q * den <= num < q * den + den
    ensures q as real <= num as real / den as real < q as real + 1.0
  {
    var dr := den as real;
    var x := num as real / dr;
    assert num as real == dr * x;
    assert (q * den) as real == dr * q as real;
    assert (q * den + den) as real == dr * (q as real + 1.0);
    ScaleOrder(dr, q as real, x);
    ScaleOrder(dr, x, q as real + 1.0);
  }

  /** Multiplying by a positive factor preserves order both ways. */
  lemma ScaleOrder(d: real, x: real, y: real)
    requires d > 0.0
    ensures x <= y <==> d * x <= d * y
    ensures x < y <==> d * x < d * y
  {
    if x <= y {
      assert d * y - d * x == d * (y - x);
    } else {
      assert d * x - d * y == d * (x - y);
    }
  }

  /** `SampleKurtosis()`: refused for N < 4; then the population kurtosis over
      N (failing as it does on constant data) scaled by the integer factor. */
  method SampleKurtosis(a: Analyzer) returns (r: Result<real>)
    requires Valid(a)
    ensures Count(a) < 4 ==> r == Failure(InvalidInput)
    ensures Count(a) >= 4 && Constant(a.values) ==> r == Failure(UndefinedResult)
    ensures Count(a) >= 4 && !Constant(a.values) ==> r.Success?
    ensures 4 <= Count(a) <= 1290 && !Constant(a.values) ==>
      && r.value > 0.0
      && var interim := PopulationKurtosis(a).value / Count(a) as real;
      && r.value == FactorRatio(Count(a)).Floor as real * interim
      && (FactorRatio(Count(a)) - 1.0) * interim < r.value <= FactorRatio(Count(a)) * interim
  {
    var n := Count(a);
    if n < 4 {
      return Failure(InvalidInput);
    }
    var kurtosis :- PopulationKurtosis(a);
    var interim := kurtosis / n as real;
    var factor := SampleKurtosisFactor(n);
    var v := factor as real * interim;
    if n <= 1290 {
      SampleKurtosisBracket(a, interim, factor, v);
    }
    r := Success(v);
  }

  /** Up to N = 1290 the factor is the ratio rounded down (and at least 1), so
      the factor times the population kurtosis over N is positive and within
      one interim below the ratio times that interim. */
  lemma SampleKurtosisBracket(a: Analyzer, interim: real, factor: int, v: real)
    requires Valid(a) && 4 <= Count(a) <= 1290 && !Constant(a.values)
    requires interim == PopulationKurtosis(a).value / Count(a) as real
    requires factor >= 1 && factor == FactorRatio(Count(a)).Floor
    requires v == factor as real * interim
    ensures v > 0.0
    ensures var interim := PopulationKurtosis(a).value / Count(a) as real;
      && v == FactorRatio(Count(a)).Floor as real * interim
      && (FactorRatio(Count(a)) - 1.0) * interim < v <= FactorRatio(Count(a)) * interim
  {
    KurtosisBracket(PopulationKurtosis(a).value, Count(a), FactorRatio(Count(a)), interim, factor, v);
  }

  /** SampleKurtosisBracket over the population kurtosis and the exact ratio
      as plain reals. */
  lemma KurtosisBracket(kurtosis: real, n: int, ratio: real, interim: real, factor: int, v: real)
    requires n >= 4 && kurtosis > 0.0
    requires interim == kurtosis / n as real
    requires factor >= 1 && factor == ratio.Floor
    requires v == factor as real * interim
    ensures v > 0.0
    ensures var interim := kurtosis / n as real;
      && v == ratio.Floor as real * interim
      && (ratio - 1.0) * interim < v <= ratio * interim
  {
    PositiveQuotient(kurtosis, n as real);
    FactorTimesInterim(ratio, factor as real, interim, v);
  }

  lemma PositiveQuotient(x: real, d: real)
    requires x > 0.0 && d > 0.0
    ensures x / d > 0.0
  {
    assert x == d * (x / d);
  }

  /** A value equal to the factor times a positive interim, where the factor
      is the ratio rounded down, lies within one interim below the ratio times
      the interim. */
  lemma FactorTimesInterim(ratio: real, factor: real, interim: real, v: real)
    requires interim > 0.0 && factor <= ratio < factor + 1.0
    requires v == factor * interim
    ensures (ratio - 1.0) * interim < v
    ensures v <= ratio * interim
    ensures factor >= 1.0 ==> v > 0.0
  {
    assert (ratio - 1.0) * interim < v by {
      ScaleOrder(interim, ratio - 1.0, factor);
    }
    assert v <= ratio * interim by {
      ScaleOrder(interim, factor, ratio);
    }
  }
}

=== FILE: outcomes.dfy ===
/** Failure-compatible result type for the analyzer's operations. Where the
    C# code throws, the model returns `Failure` carrying the kind of exception. */
module Outcomes {

  /** The kinds of exception the analyzer can raise. */
  datatype Error =
    | InvalidInput     // the constructor's empty-data guard and the sample statistics' size guards
    | UndefinedResult  // PopulationKurtosis on data whose second central moment is zero
    | IndexOutOfRange     // an array index past the end of the data (Median's direct indexing)
    | ArgumentOutOfRange  // `ElementAt` past the end of a sequence (MedianWith's indexing)

  datatype Result<+T> = Success(value: T) | Failure(error: Error) {

    predicate IsFailure() {
      Failure?
    }

    function PropagateFailure<U>(): Result<U>
      requires Failure?
    {
      Failure(error)
    }

    function Extract(): T
      requires Success?
    {
      value
    }
  }
}

=== FILE: sequences.dfy ===
/** Sequence facts the analyzer relies on: ascending order, sorting, the
    running maximum and minimum, real-valued sums, and order-preserving filters. */
module Sequences {

  /** Ascending (non-decreasing) order. */
  predicate Sorted(s: seq<int>) {
    forall i, j :: 0 <= i <= j < |s| ==> s[i] <= s[j]
  }

  /** Every element equals every other. */
  predicate Constant(s: seq<int>) {
    forall i, j :: 0 <= i < |s| && 0 <= j < |s| ==> s[i] == s[j]
  }

  // ---------------------------------------------------------------------------
  // Sorting
  // ---------------------------------------------------------------------------

  /** Inserts `x` into sorted `s` in front of the first element not below it. */
  function Insert(x: int, s: seq<int>): (r: seq<int>)
    requires Sorted(s)
    ensures Sorted(r)
    ensures multiset(r) == multiset(s) + multiset{x}
    ensures r[0] == x || (|s| > 0 && r[0] == s[0])
  {
    if |s| == 0 || x <= s[0] then
      ConsSorted(x, s);
      [x] + s
    else
      var t := Insert(x, s[1..]);
      assert s == [s[0]] + s[1..];
      ConsSorted(s[0], t);
      [s[0]] + t
  }

  /** A value no larger than the head of a sorted sequence can go in front. */
  lemma ConsSorted(x: int, s: seq<int>)
    requires Sorted(s)
    requires |s| > 0 ==> x <= s[0]
    ensures Sorted([x] + s)
  {
    var r := [x] + s;
    forall i, j | 0 <= i <= j < |r| ensures r[i] <= r[j] {
      if i > 0 {
        assert r[i] == s[i - 1] && r[j] == s[j - 1];
      } else if j > 0 {
        assert r[j] == s[j - 1];
      }
    }
  }

  /** A sorted permutation of `s` (insertion sort). */
  function Sort(s: seq<int>): (r: seq<int>)
    ensures Sorted(r)
    ensures multiset(r) == multiset(s)
    ensures |r| == |s|
  {
    if |s| == 0 then []
    else
      assert s == [s[0]] + s[1..];
      var r := Insert(s[0], Sort(s[1..]));
      assert |r| == |multiset(r)| == |multiset(s)|;
      r
  }

  /** The first element of a non-empty sorted sequence is its least element. */
  lemma SortedHeadIsLeast(s: seq<int>, x: int)
    requires Sorted(s) && x in multiset(s)
    ensures |s| > 0 && s[0] <= x
  {
    assert x in s;
  }

  /** Sorting is determined by its input: two sorted sequences with the same
      elements are equal, whatever algorithm produced them. */
  lemma {:induction false} SortedPermutationUnique(a: seq<int>, b: seq<int>)
    requires Sorted(a) && Sorted(b)
    requires multiset(a) == multiset(b)
    ensures a == b
  {
    assert |a| == |multiset(a)| == |multiset(b)| == |b|;
    if |a| > 0 {
      SameLeast(a, b);
      DropHead(a);
      DropHead(b);
      SortedPermutationUnique(a[1..], b[1..]);
      assert a == [a[0]] + a[1..] && b == [b[0]] + b[1..];
    }
  }

  /** Two non-empty sorted sequences with the same elements start alike. */
  lemma SameLeast(a: seq<int>, b: seq<int>)
    requires Sorted(a) && Sorted(b) && |a| > 0 && |b| > 0
    requires multiset(a) == multiset(b)
    ensures a[0] == b[0]
  {
    assert a[0] in multiset(b) && b[0] in multiset(a);
    SortedHeadIsLeast(b, a[0]);
    SortedHeadIsLeast(a, b[0]);
  }

  /** Dropping the head of a sorted sequence leaves a sorted sequence with one
      occurrence of the head fewer. */
  lemma DropHead(s: seq<int>)
    requires Sorted(s) && |s| > 0
    ensures Sorted(s[1..])
    ensures multiset(s[1..]) == multiset(s) - multiset{s[0]}
  {
    assert s == [s[0]] + s[1..];
  }

  // ---------------------------------------------------------------------------
  // Running maximum and minimum (a left-to-right scan)
  // ---------------------------------------------------------------------------

  /** The largest element, found by scanning from the left. */
  function MaxOf(s: seq<int>): (r: int)
    requires |s| > 0
    ensures r in s
    ensures forall i :: 0 <= i < |s| ==> s[i] <= r
  {
    if |s| == 1 then s[0]
    else
      var m := MaxOf(s[..|s| - 1]);
      assert s == s[..|s| - 1] + [s[|s| - 1]];
      if s[|s| - 1] > m then s[|s| - 1] else m
  }

  /** The smallest element, found by scanning from the left. */
  function MinOf(s: seq<int>): (r: int)
    requires |s| > 0
    ensures r in s
    ensures forall i :: 0 <= i < |s| ==> r <= s[i]
  {
    if |s| == 1 then s[0]
    else
      var m := MinOf(s[..|s| - 1]);
      assert s == s[..|s| - 1] + [s[|s| - 1]];
      if s[|s| - 1] < m then s[|s| - 1] else m
  }

  // ---------------------------------------------------------------------------
  // Real-valued sums
  // ---------------------------------------------------------------------------

  /** Each element converted to a real, in order. */
  function Reals(s: seq<int>): (r: seq<real>)
    ensures |r| == |s|
    ensures forall i :: 0 <= i < |s| ==> r[i] == s[i] as real
  {
    seq(|s|, i requires 0 <= i < |s| => s[i] as real)
  }

  /** Left-to-right sum starting from zero. */
  function Sum(s: seq<real>): real {
    if |s| == 0 then 0.0 else Sum(s[..|s| - 1]) + s[|s| - 1]
  }

  /** A sum of terms within [lo, hi] lies within [n*lo, n*hi]. */
  lemma {:induction false} SumBounds(s: seq<real>, lo: real, hi: real)
    requires forall i :: 0 <= i < |s| ==> lo <= s[i] <= hi
    ensures |s| as real * lo <= Sum(s) <= |s| as real * hi
  {
    if |s| > 0 {
      SumBounds(s[..|s| - 1], lo, hi);
    }
  }

  /** Dividing a total that lies within [n*lo, n*hi] by n lands within [lo, hi]. */
  lemma DivideBounds(total: real, n: real, lo: real, hi: real)
    requires n > 0.0 && n * lo <= total <= n * hi
    ensures lo <= total / n <= hi
  {
    assert total == n * (total / n);
  }

  /** A sum of non-negative terms is non-negative, and zero exactly when every term is. */
  lemma {:induction false} SumZeroIff(s: seq<real>)
    requires forall i :: 0 <= i < |s| ==> 0.0 <= s[i]
    ensures 0.0 <= Sum(s)
    ensures Sum(s) == 0.0 <==> forall i :: 0 <= i < |s| ==> s[i] == 0.0
  {
    if |s| > 0 {
      var p := s[..|s| - 1];
      SumZeroIff(p);
      if Sum(s) == 0.0 {
        forall i | 0 <= i < |s| ensures s[i] == 0.0 {
          if i < |s| - 1 {
            assert s[i] == p[i];
          }
        }
      }
    }
  }

  // ---------------------------------------------------------------------------
  // Order-preserving filters against a real threshold
  // ---------------------------------------------------------------------------

  /** The elements not above `bound`, in their original order. */
  function AtMost(s: seq<int>, bound: real): (r: seq<int>)
    ensures forall x :: multiset(r)[x] == if x as real <= bound then multiset(s)[x] else 0
  {
    if |s| == 0 then []
    else
      assert s == [s[0]] + s[1..];
      (if s[0] as real <= bound then [s[0]] else []) + AtMost(s[1..], bound)
  }

  /** The elements not below `bound`, in their original order. */
  function AtLeast(s: seq<int>, bound: real): (r: seq<int>)
    ensures forall x :: multiset(r)[x] == if x as real >= bound then multiset(s)[x] else 0
  {
    if |s| == 0 then []
    else
      assert s == [s[0]] + s[1..];
      (if s[0] as real >= bound then [s[0]] else []) + AtLeast(s[1..], bound)
  }

  /** On sorted data, AtMost keeps exactly a prefix: the elements not above the bound. */
  lemma {:induction false} AtMostIsPrefix(s: seq<int>, bound: real)
    requires Sorted(s)
    ensures |AtMost(s, bound)| <= |s|
    ensures AtMost(s, bound) == s[..|AtMost(s, bound)|]
    ensures forall i :: 0 <= i < |AtMost(s, bound)| ==> s[i] as real <= bound
    ensures forall i :: |AtMost(s, bound)| <= i < |s| ==> s[i] as real > bound
  {
    if |s| > 0 {
      var t := s[1..];
      AtMostIsPrefix(t, bound);
      var rt := AtMost(t, bound);
      if s[0] as real <= bound {
        assert AtMost(s, bound) == [s[0]] + rt;
        assert [s[0]] + t[..|rt|] == s[..|rt| + 1];
      } else {
        assert rt == [];
        assert AtMost(s, bound) == [];
      }
    }
  }

  /** On sorted data, AtLeast keeps exactly a suffix: the elements not below the bound. */
  lemma {:induction false} AtLeastIsSuffix(s: seq<int>, bound: real)
    requires Sorted(s)
    ensures |AtLeast(s, bound)| <= |s|
    ensures AtLeast(s, bound) == s[|s| - |AtLeast(s, bound)|..]
    ensures forall i :: 0 <= i < |s| - |AtLeast(s, bound)| ==> s[i] as real < bound
    ensures forall i :: |s| - |AtLeast(s, bound)| <= i < |s| ==> s[i] as real >= bound
  {
    if |s| > 0 {
      var t := s[1..];
      AtLeastIsSuffix(t, bound);
      var rt := AtLeast(t, bound);
      if s[0] as real >= bound {
        assert AtLeast(s, bound) == [s[0]] + rt;
        assert rt == t;
        assert [s[0]] + t == s;
      } else {
        assert AtLeast(s, bound) == rt;
        assert t[|t| - |rt|..] == s[|s| - |rt|..];
      }
    }
  }

  /** If the first k sorted elements are not above the bound, AtMost keeps at least k. */
  lemma AtMostCount(s: seq<int>, bound: real, k: int)
    requires Sorted(s) && 0 <= k <= |s|
    requires k > 0 ==> s[k - 1] as real <= bound
    ensures |AtMost(s, bound)| >= k
  {
    AtMostIsPrefix(s, bound);
  }

  /** If the last k sorted elements are not below the bound, AtLeast keeps at least k. */
  lemma AtLeastCount(s: seq<int>, bound: real, k: int)
    requires Sorted(s) && 0 <= k <= |s|
    requires k > 0 ==> s[|s| - k] as real >= bound
    ensures |AtLeast(s, bound)| >= k
  {
    AtLeastIsSuffix(s, bound);
  }
}
